=== FILE: README.md ===
# Receipt OCR service: JSON extraction and upload checks, in Dafny

This project models the logic at the centre of the MLX-VLM receipt scanner's `POST /extract`
endpoint and proves properties about it:

- **`extract_json_from_response`**: turns a vision-language model's free text into one JSON
  value. It strips the text and finds every fenced block that starts with ```` ```json ````,
  using the regular expression ```` ```json\s*(\{.*?\})\s*``` ```` in `DOTALL` mode. It decodes
  the blocks in order and returns the first one that decodes. Otherwise it decodes the span
  from the first `{` to the last `}`, and re-raises that decode error. With no `{` or no `}`, it
  raises `ValueError("No valid JSON object found in response")`.
- **`allowed_file`**: takes the text after the last dot of a file name, lower-cased, and checks
  it against `ALLOWED_EXTENSIONS` (`png`, `jpg`, `jpeg`, `webp`).
- **the request checks and error mapping of `extract_receipt`**:
  - The checks run in order, each answering 400: `image` part present, non-empty file name,
    allowed extension, size at most `MAX_IMAGE_SIZE` (default 10 MiB).
  - A failed image decode also answers 400.
  - A model-loading failure answers 500 with only `"Model initialization failed"`.
  - Generation and extraction failures answer 500 with a `raw_response` field: the first 1000
    characters of the model's text, or `"No response"` when generation produced none.
  - A `JSONDecodeError` raised by generation itself, before the text exists, reaches the outer
    handler instead, which answers 500 with only an "Internal server error" message.

Modules:

| file | module | models |
|---|---|---|
| `wrappers.dfy` | `Wrappers` | `Option` and `Result` |
| `text.dfy` | `Text` | `str.strip`, `find`, `rfind`, `lower`, slicing `[:n]`, decimal rendering of an `int` |
| `json.dfy` | `Json` | decoded JSON values; `json.loads` as a decoder oracle |
| `fenced.dfy` | `Fenced` | `re.findall` with the fenced-block pattern: regex semantics, scan order, non-overlap |
| `extractor.dfy` | `Extractor` | `extract_json_from_response` |
| `uploads.dfy` | `Uploads` | `allowed_file`, the four request checks, their 400 messages |
| `service.dfy` | `Service` | the whole `extract_receipt` handler, with foreign steps as parameters |

`json.loads` is a parameter `decode: string -> Option<Value>`. `None` stands for
`JSONDecodeError`. Two facts about the real decoder are stated as predicates, and lemmas assume
them only where needed:

- `RejectsEmpty`: the empty document is invalid.
- `BraceMeansObject`: a document that starts with `{` can only decode to an object.

The regular expression is modelled as the engine runs it:

- At each index, the engine tries the pattern (`Fenced.MatchAt`).
- Neither `{` nor a backtick is whitespace, so both greedy `\s*` runs must consume the whole
  whitespace run.
- The lazy `.*?` takes the earliest group end from which the rest of the pattern can match.
- After a match, the scan resumes at the match's end (`Fenced.Scan`).
- `Fenced.PatternAt` states the pattern declaratively, and `Fenced.MatchAtIsLazyMatch` proves
  that `MatchAt` picks the shortest group among all ways to match.

## Model

| member | source | states |
|---|---|---|
| `Text.Strip` | app.py:55 | the stripped text is no longer than the input and, when not empty, starts and ends with non-whitespace |
| `Text.StripKeepsText` | app.py:55 | `strip` keeps every non-whitespace character of the text and adds none |
| `Text.StripPadded` | app.py:55 | whitespace added around a text does not change what `strip()` returns |
| `Text.FindFirst` | app.py:69 | `find('{')` gives the first index holding the character, or nothing exactly when it is absent |
| `Text.FindLast` | app.py:70 | `rfind('}')` gives the last index holding the character, or nothing exactly when it is absent |
| `Text.Truncate` | app.py:171 | `response[:1000]` is a prefix of the text, of length 1000 or the whole text when shorter |
| `Text.DecimalRoundTrip` | app.py:116 | the decimal digits printed for a size limit read back as that limit |
| `Text.SkipSpace` | app.py:55-59 | a whitespace run (the part `strip` drops in front, and a greedy `\s*`) stops at the first non-whitespace character and consumes only whitespace |
| `Fenced.FirstClose` | app.py:59 | the lazy group ends at the least position after which `}`, whitespace and the closing fence follow |
| `Fenced.MatchAt` | app.py:59 | a match at an index starts there with the opening fence in the text, its group runs from a `{` to a `}`, and it ends with the closing fence in the text |
| `Fenced.MatchAtIsLazyMatch` | app.py:59 | the engine's match is a match of the pattern, and whenever the pattern can match, the engine finds the match with the shortest group |
| `Fenced.Scan` | app.py:59 | `findall`'s matches come in text order and never overlap |
| `Fenced.ScanYieldsMatches` | app.py:59 | every reported block is the engine's match at that block's start |
| `Fenced.ScanIsLeftmost` | app.py:59 | no match is missed: each index where the pattern matches lies inside a reported block |
| `Fenced.FindAll` | app.py:59 | every captured group has at least two characters, begins with `{` and ends with `}` |
| `Fenced.BlocksNeedBraces` | app.py:59 | a text with a fenced block holds a `{` that comes before some `}` |
| `Fenced.NoBacktickNoBlocks` | app.py:59 | text without a backtick yields no fenced block |
| `Fenced.FenceMatch` | app.py:59 | a well-formed fence (opening fence, whitespace, a backtick-free object, whitespace, closing fence) is matched with its object as the group |
| `Fenced.FindAllOneFence` | app.py:59 | a text that is one well-formed fence yields exactly its object |
| `Fenced.FindAllTwoFences` | app.py:59 | two well-formed fences separated by backtick-free text yield both objects, in order |
| `Extractor.BodiesNeedNoStrip` | app.py:64 | `block.strip()` leaves every captured group unchanged |
| `Extractor.FirstDecoded` | app.py:60-66 | returns the first block that decodes, and every block before it fails to decode; nothing when none decodes |
| `Extractor.FallbackDoc` | app.py:69-73 | the fallback document exists exactly when both braces occur; it is empty exactly when every `}` precedes every `{`, and otherwise runs from `{` to `}` |
| `Extractor.Extract` | app.py:53-81 | the first fenced body that decodes wins; otherwise, with both braces present, the raw text's `{`…`}` span is decoded and its decode error re-raised; otherwise "not found" |
| `Extractor.FirstDecodableBlockWins` | app.py:59-66 | when the i-th block is the first that decodes, its value is returned, whatever comes after it |
| `Extractor.FallbackIgnoresStrip` | app.py:55-73 | taking the fallback of the stripped text is the same as taking it of the raw text |
| `Extractor.UndecodableBlocksFallBack` | app.py:60-81 | when no block decodes, the result is the raw text's fallback: its value, its decode error, or "not found" when a brace is missing |
| `Extractor.NotFoundIffBraceMissing` | app.py:69-81 | "No valid JSON object found" is raised exactly when the text lacks a `{` or a `}` |
| `Extractor.ResultIsBraceDelimited` | app.py:53-81 | any returned value is the decoding of a span of the response that starts with `{` and ends with `}` |
| `Extractor.ResultIsObject` | app.py:53-81 | with a decoder that reads `{`-led documents only as objects, every returned value is an object |
| `Extractor.InvertedBracesGiveDecodeError` | app.py:69-79 | when every `}` precedes every `{`, the empty slice is decoded and its decode error is raised, not "not found" |
| `Extractor.PaddingIsIgnored` | app.py:55 | whitespace around the response never changes the outcome |
| `Extractor.SingleFencedBlock` | app.py:59-64 | a reply consisting of one fenced object that decodes yields that object |
| `Extractor.MalformedFirstBlockSkipped` | app.py:62-66 | an undecodable first fenced block is skipped and the second block's value is returned |
| `Extractor.ProseWrappedObject` | app.py:69-75 | an unfenced object in prose is decoded from its own `{` to its own `}` |
| `Uploads.Extension` | app.py:49-50 | the extension exists exactly when the name has a dot; it is the dot-free suffix after the last dot |
| `Uploads.AllowedFile` | app.py:47-50 | a name is allowed exactly when, after some dot with no dot following, the lower-cased rest is an allowed extension |
| `Uploads.NoDotNotAllowed` | app.py:49-50 | a name without a dot, or ending in a dot (the empty name included), is refused |
| `Uploads.AllowedFileIgnoresCase` | app.py:50 | lower-casing the whole name never changes the answer |
| `Uploads.AllowedFileOfParts` | app.py:47-50 | a name `base.ext` with no dot in `ext` is allowed exactly when `ext`, lower-cased, is an allowed extension, whatever dots `base` holds (so `receipt.png.txt` is refused and `scan.tar.JPEG` accepted) |
| `Uploads.Validate` | app.py:99-116 | each rejection happens exactly when its check is the first to fail, in the source's order |
| `Uploads.AcceptedIff` | app.py:104-116 | a request passes exactly when it has an image with an allowed name and a size within the limit |
| `Uploads.SizeLimitIsInclusive` | app.py:115 | a file of exactly `MAX_IMAGE_SIZE` bytes passes; one byte more is refused as too large |
| `Uploads.DefaultLimit` | config.py:18 | the default limit is 10485760 bytes: a 10 MiB upload passes and a 15 MiB upload is refused as too large |
| `Uploads.RejectionMessagesDiffer` | app.py:99-116 | the four 400 error texts are pairwise different, whatever the set's print order and the limit |
| `Uploads.TypeMessageListsEveryExtension` | app.py:107-108 | in whatever order Python prints the set, the type message quotes every allowed extension |
| `Uploads.TooLargeMessageNamesLimit` | app.py:115-116 | the size message is the fixed prefix, the limit's decimal digits, and " bytes" |
| `Service.Handle` | app.py:167-184 | every inner handler answers 500 and echoes the truncated text or "No response"; a `JSONDecodeError` before `response` is bound escapes to the outer handler |
| `Service.RawOrNone` | app.py:177 | `raw_response` is a prefix of at most 1000 characters of the text, or "No response" when there is none |
| `Service.Infer` | app.py:145-184 | the reply is 200 exactly when generation and its log line succeed and extraction returns a value, which is then the body; every other outcome is 500 |
| `Service.HandleUpload` | app.py:96-192 | the reply is 400 exactly when a request check fails or the image does not decode; a refused request's body is the first failing check's message, an undecodable image gets "Invalid image file", a model that does not load gets 500 "Model initialization failed"; after that a failed save is an internal error and otherwise the reply is the inference outcome |
| `Service.RefusalNamesFailedCheck` | app.py:99-116 | requests refused by different checks get different reply bodies, so the reply names the check that failed |
| `Service.FailureAfterGenerationEchoesText` | app.py:167-184 | when every check passes, the model loads, the save succeeds and the model produced text, each reply other than 200 is a 500 whose `raw_response` is the first 1000 characters of that text |
| `Service.RawResponseIsPrefix` | app.py:171-183 | the echoed `raw_response` is the first `min(1000, len(text))` characters of the model's text |
| `Service.GenerationFailureReplies` | app.py:167-192 | a generation failure echoes "No response", except a `JSONDecodeError`, which ends in the outer handler's `UnboundLocalError` reply |
| `Service.ExtractionFailureReplies` | app.py:162-178 | "not found" replies "Model inference failed: No valid JSON object found in response"; a decode error replies "Failed to parse model response as JSON" |
| `Service.NotFoundReplyIffBraceMissing` | app.py:162-178 | the "not found" reply is given exactly when the model's text lacks a `{` or a `}` |
| `Service.RejectionIgnoresEnvironment` | app.py:99-116 | a refused request gets the same error reply whatever the image, model and generation would have done |
| `Service.SuccessIff` | app.py:96-165 | a receipt comes back exactly when every check and foreign step succeeds and extraction finds a value, which is then the body |
| `Service.SuccessCarriesObject` | app.py:162-165 | with a decoder that reads `{`-led documents only as objects, every 200 reply carries a JSON object |

## Left out

- Routes other than `/extract` are not modelled: `/health`, `/models` and the `__main__` start-up
  (app.py:84-91 and 195-217). They report configuration and whether the model is loaded, or
  start the server with an optional model preload; none of them shapes an `/extract` reply.
- `load_model`, `mlx_vlm.generate`, PIL decoding and RGB conversion are parameters of
  `Service.HandleUpload`: they are foreign code.
  - `Environment.imageDecodes`, `modelLoads` and `saveError` give their outcomes.
  - `Generation` gives the model's text, or the exception raised before `response` was bound.
  - `Generation.logError` is what the statistics log line (app.py:159) raised, for example when
    the result has no `generation_tokens`.
- The temporary file's creation and deletion are left out, apart from a save error reaching the
  outer handler. They are I/O.
- Logging is left out throughout: it has no effect on replies. The exception is the app.py:159
  line, which can raise.
- The size of the upload (`seek`/`tell`) is a parameter. Reading the stream is I/O.
- `json.loads` is an oracle, with no JSON grammar. Exceptions other than `JSONDecodeError` from
  `json.loads` itself are not modelled; `RecursionError` on deep nesting is an example.
- `str(e)` of an arbitrary exception is a parameter (`Raised.message`).
- `Service.UnboundResponseMessage` is CPython 3.11's wording. Earlier versions word the
  `UnboundLocalError` differently.
- Environment parsing in config.py is not modelled: `MAX_IMAGE_SIZE` is a parameter `maxSize`.
  - `Uploads.DefaultMaxImageSize` holds the default.
  - `MAX_TOKENS`, `TEMPERATURE`, `MAX_IMAGE_DIMENSION`, the prompts, the host, the port and the
    model name are not modelled. They configure foreign code only.
- `Uploads.RejectionMessage`: the order in which Python prints `ALLOWED_EXTENSIONS` depends on
  string hashing. The order is a parameter constrained to list the set once.
- `Text.Strip`: whitespace is the ASCII set Python's `str.isspace` accepts (tab, line feed,
  vertical tab, form feed, carriage return, 0x1C-0x1F, space). Python also strips Unicode
  spaces, and `\s` in the pattern also matches them. Both are modelled with the same ASCII set.
- `Uploads.AllowedFile`: `lower()` is modelled for ASCII letters only. For the four allowed
  extensions the answer is the same, because no non-ASCII character lower-cases to one of
  their letters.
- The fenced blocks' `\s*` and the lazy group are modelled exactly for the ASCII whitespace set
  (see the `Text.Strip` line above: Unicode spaces such as U+00A0 match `\s` in Python but not
  here). Other regex features are not modelled, since the pattern does not use them.
- test_service.py is not modelled. It is a manual client that sends HTTP requests.

Three facts about the code that a reader might otherwise assume differently:

- The pattern requires the literal `json` language tag after the opening fence; a fence
  without it is not a block (app.py:59).
- A failed fallback parse re-raises the `JSONDecodeError` (app.py:79), so the handler answers
  "Failed to parse model response as JSON", not "no valid JSON object found".
- Only the multipart `image` field is read (app.py:99-102); there is no other image source.

=== FILE: extractor.dfy ===
/** `extract_json_from_response`: recovering one JSON object from a model's free text.

    The text is stripped; the fenced `json` blocks are tried in scan order and the first whose
    body decodes wins; otherwise the text from the first `{` to the last `}` is decoded, and
    its decode error is what the caller sees; with no `{` or no `}` the result is "not found". */
module Extractor {
  import opened Wrappers
  import opened Text
  import opened Json
  import Fenced

  /** The two exceptions the function raises: `ValueError("No valid JSON object found in
      response")`, and the `JSONDecodeError` of the fallback document, re-raised. */
  datatype ExtractError = NotFound | DecodeError(doc: string)

  const NotFoundMessage: string := "No valid JSON object found in response"

  /** The loop over the fenced bodies: `json.loads(block.strip())` on each in turn; a body that
      does not decode is skipped, the first that does is returned with its index. */
  function FirstDecoded(bodies: seq<string>, decode: Decoder): (r: Option<(nat, Value)>)
    ensures r.Some? ==> r.value.0 < |bodies| && decode(Strip(bodies[r.value.0])) == Some(r.value.1)
    ensures forall i :: 0 <= i < |bodies| && (r.None? || i < r.value.0) ==>
              decode(Strip(bodies[i])).None?
  {
    if |bodies| == 0 then None
    else
      match decode(Strip(bodies[0]))
      case Some(v) => Some((0, v))
      case None =>
        match FirstDecoded(bodies[1..], decode)
        case Some((i, v)) => Some((i + 1, v))
        case None => None
  }

  /** `text[text.find('{'):text.rfind('}') + 1]` when both braces occur. Python slicing makes
      the document empty when the last `}` comes before the first `{`. */
  function FallbackDoc(t: string): (r: Option<string>)
    ensures r.None? <==> '{' !in t || '}' !in t
    ensures r.Some? ==> (r.value == [] <==> AllBefore(t, '}', '{'))
    ensures r.Some? && r.value != [] ==> r.value[0] == '{' && r.value[|r.value| - 1] == '}'
  {
    var first, last := FindFirst(t, '{'), FindLast(t, '}');
    if first.None? || last.None? then None
    else
      assert first.value > last.value ==> AllBefore(t, '}', '{');
      Some(BraceSpan(t, first.value, last.value))
  }

  /** `t[lo:hi + 1]` for in-range indices: empty when `hi` comes before `lo`. */
  function BraceSpan(t: string, lo: nat, hi: nat): string
    requires lo < |t| && hi < |t|
  {
    if lo <= hi then t[lo..hi + 1] else []
  }

  /** Decoding one candidate: its value, or the decode error that carries the document. */
  function DecodeDoc(doc: string, decode: Decoder): (r: Result<Value, ExtractError>)
    ensures r.Ok? <==> decode(doc).Some?
    ensures r.Ok? ==> decode(doc) == Some(r.value)
    ensures r.Err? ==> r.error == DecodeError(doc)
  {
    match decode(doc)
    case Some(v) => Ok(v)
    case None => Err(DecodeError(doc))
  }

  /** `extract_json_from_response(response)`. The three outcomes: the first fenced body that
      decodes; else, with a `{` and a `}` in the text, the fallback document's value or decode
      error; else "not found". The fallback may be read off the raw text, since stripping moves
      no brace. */
  function Extract(response: string, decode: Decoder): (r: Result<Value, ExtractError>)
    ensures var fenced := FirstDecoded(Fenced.FindAll(Strip(response)), decode);
            fenced.Some? ==> r == Ok(fenced.value.1)
    ensures var fenced := FirstDecoded(Fenced.FindAll(Strip(response)), decode);
            fenced.None? && FallbackDoc(response).None? ==> r == Err(NotFound)
    ensures var fenced := FirstDecoded(Fenced.FindAll(Strip(response)), decode);
            fenced.None? && FallbackDoc(response).Some? ==> r == DecodeDoc(FallbackDoc(response).value, decode)
  {
    FallbackIgnoresStrip(response);
    var t := Strip(response);
    match FirstDecoded(Fenced.FindAll(t), decode)
    case Some((_, v)) => Ok(v)
    case None =>
      match FallbackDoc(t)
      case None => Err(NotFound)
      case Some(doc) => DecodeDoc(doc, decode)
  }

  /** Fenced bodies begin with `{` and end with `}`, so `block.strip()` leaves them alone. */
  lemma BodiesNeedNoStrip(t: string)
    ensures forall i :: 0 <= i < |Fenced.FindAll(t)| ==>
              Strip(Fenced.FindAll(t)[i]) == Fenced.FindAll(t)[i]
  {
    var bodies := Fenced.FindAll(t);
    forall i | 0 <= i < |bodies| ensures Strip(bodies[i]) == bodies[i] {
      StripUnpadded(bodies[i]);
    }
  }

  /** Earlier bad blocks are skipped: when the `i`-th fenced body is the first that decodes,
      its value is the result, whatever follows it and whatever the fallback would give. */
  lemma FirstDecodableBlockWins(response: string, decode: Decoder, i: nat)
    requires i < |Fenced.FindAll(Strip(response))|
    requires decode(Fenced.FindAll(Strip(response))[i]).Some?
    requires forall j :: 0 <= j < i ==> decode(Fenced.FindAll(Strip(response))[j]).None?
    ensures Extract(response, decode) == Ok(decode(Fenced.FindAll(Strip(response))[i]).value)
  {
    var bodies := Fenced.FindAll(Strip(response));
    BodiesNeedNoStrip(Strip(response));
    var r := FirstDecoded(bodies, decode);
    assert r.Some? && r.value.0 == i;
  }

  /** A text's first `{` and last `}` are the window's, shifted by its start, when the window
      holds every brace of the text. */
  lemma BracesInWindow(s: string, lo: nat, hi: nat)
    requires lo <= hi <= |s|
    requires forall i :: 0 <= i < |s| && !(lo <= i < hi) ==> s[i] != '{' && s[i] != '}'
    ensures FindFirst(s, '{').Some? ==> FindFirst(s[lo..hi], '{') == Some(FindFirst(s, '{').value - lo)
    ensures FindLast(s, '}').Some? ==> FindLast(s[lo..hi], '}') == Some(FindLast(s, '}').value - lo)
  {
    var t := s[lo..hi];
    if FindFirst(s, '{').Some? {
      var a := FindFirst(s, '{').value;
      assert t[a - lo] == s[a];
      forall j | 0 <= j < a - lo ensures t[j] != '{' {
        assert t[j] == s[lo + j];
      }
      FindFirstAt(t, '{', a - lo);
    }
    if FindLast(s, '}').Some? {
      var z := FindLast(s, '}').value;
      assert t[z - lo] == s[z];
      forall j | z - lo < j < |t| ensures t[j] != '}' {
        assert t[j] == s[lo + j];
      }
      FindLastAt(t, '}', z - lo);
    }
  }

  /** The fallback document of the stripped text is the fallback document of the raw text:
      stripping removes no brace and moves none relative to another. */
  lemma FallbackIgnoresStrip(s: string)
    ensures FallbackDoc(Strip(s)) == FallbackDoc(s)
  {
    var b := StripBounds(s);
    assert Strip(s) == s[b.0..b.1];
    forall i | 0 <= i < |s| && !(b.0 <= i < b.1) ensures s[i] != '{' && s[i] != '}' {
      assert IsSpace(s[i]);
    }
    FallbackInWindow(s, b.0, b.1);
  }

  /** A window holding every brace of a text has the text's fallback document. */
  lemma FallbackInWindow(s: string, lo: nat, hi: nat)
    requires lo <= hi <= |s|
    requires forall i :: 0 <= i < |s| && !(lo <= i < hi) ==> s[i] != '{' && s[i] != '}'
    ensures FallbackDoc(s[lo..hi]) == FallbackDoc(s)
  {
    BracesInWindow(s, lo, hi);
    if '{' in s && '}' in s {
      FallbackInWindowAt(s, lo, hi, FindFirst(s, '{').value, FindLast(s, '}').value);
    } else {
      var t := s[lo..hi];
      assert '{' !in t || '}' !in t;
    }
  }

  /** `FallbackInWindow` once the braces' positions in the whole text are known. */
  lemma FallbackInWindowAt(s: string, lo: nat, hi: nat, i: nat, j: nat)
    requires lo <= i < hi <= |s| && lo <= j < hi
    requires FindFirst(s, '{') == Some(i) && FindLast(s, '}') == Some(j)
    requires FindFirst(s[lo..hi], '{') == Some(i - lo) && FindLast(s[lo..hi], '}') == Some(j - lo)
    ensures FallbackDoc(s[lo..hi]) == FallbackDoc(s)
  {
    var t := s[lo..hi];
    var d := BraceSpan(s, i, j);
    FallbackAt(s, i, j);
    BraceSpanInWindow(s, lo, hi, i, j);
    FallbackAt(t, i - lo, j - lo);
    assert FallbackDoc(t) == Some(d);
  }

  /** The brace span of a window, at shifted positions, is the brace span of the whole text. */
  lemma BraceSpanInWindow(s: string, lo: nat, hi: nat, i: nat, j: nat)
    requires lo <= i < hi <= |s| && lo <= j < hi
    ensures BraceSpan(s[lo..hi], i - lo, j - lo) == BraceSpan(s, i, j)
  {
    if i <= j {
      SliceOfSlice(s, lo, s[lo..hi], i - lo, j + 1 - lo);
    }
  }

  /** The fallback document in terms of where the first `{` and the last `}` are. */
  lemma FallbackAt(t: string, i: nat, j: nat)
    requires FindFirst(t, '{') == Some(i) && FindLast(t, '}') == Some(j)
    ensures FallbackDoc(t) == Some(BraceSpan(t, i, j))
  {
  }

  /** When no fenced body decodes, the only candidate left is the raw text's span from its first
      `{` to its last `}`: the result is that span's value or its decode error, and "not found"
      exactly when a brace is missing. */
  lemma UndecodableBlocksFallBack(response: string, decode: Decoder)
    requires forall j :: 0 <= j < |Fenced.FindAll(Strip(response))| ==>
               decode(Fenced.FindAll(Strip(response))[j]).None?
    ensures FallbackDoc(response).None? ==> Extract(response, decode) == Err(NotFound)
    ensures FallbackDoc(response).Some? ==>
              Extract(response, decode) == DecodeDoc(FallbackDoc(response).value, decode)
  {
    var t := Strip(response);
    BodiesNeedNoStrip(t);
    FallbackIgnoresStrip(response);
    assert FirstDecoded(Fenced.FindAll(t), decode).None?;
  }

  /** "Not found" is raised exactly when the text lacks a `{` or a `}`; when both occur the
      failure, if any, is a decode error. */
  lemma NotFoundIffBraceMissing(response: string, decode: Decoder)
    ensures Extract(response, decode) == Err(NotFound) <==> '{' !in response || '}' !in response
  {
    var t := Strip(response);
    FallbackIgnoresStrip(response);
    if '{' !in response || '}' !in response {
      Fenced.BlocksNeedBraces(t);
      assert Fenced.FindAll(t) == [];
    }
  }

  /** `v` is what the decoder makes of some brace-delimited span of `s`. */
  ghost predicate DecodedSpan(s: string, v: Value, decode: Decoder)
  {
    exists lo: nat, hi: nat :: lo < hi <= |s| && s[lo] == '{' && s[hi - 1] == '}' &&
      decode(s[lo..hi]) == Some(v)
  }

  /** A brace-delimited span of a window is a brace-delimited span of the whole text. */
  lemma SpanInWindow(s: string, lo: nat, hi: nat, x: nat, y: nat, v: Value, decode: Decoder)
    requires lo <= hi <= |s| && x < y <= hi - lo
    requires s[lo..hi][x] == '{' && s[lo..hi][y - 1] == '}'
    requires decode(s[lo..hi][x..y]) == Some(v)
    ensures DecodedSpan(s, v, decode)
  {
    SliceOfSlice(s, lo, s[lo..hi], x, y);
    assert s[lo + x] == s[lo..hi][x];
    assert s[lo + y - 1] == s[lo..hi][y - 1];
  }

  /** A value taken from a fenced block was decoded from a brace-delimited span of the text. */
  lemma FencedValueIsSpan(response: string, decode: Decoder, i: nat, v: Value)
    requires i < |Fenced.FindAll(Strip(response))|
    requires decode(Fenced.FindAll(Strip(response))[i]) == Some(v)
    ensures DecodedSpan(response, v, decode)
  {
    var b := StripBounds(response);
    var t := response[b.0..b.1];
    assert Strip(response) == t;
    var m := Fenced.Scan(t, 0)[i];
    assert Fenced.Framed(t, m);
    assert Fenced.FindAll(t)[i] == t[m.bodyStart..m.bodyEnd];
    SpanInWindow(response, b.0, b.1, m.bodyStart, m.bodyEnd, v, decode);
  }

  /** A value decoded from the fallback document was decoded from a brace-delimited span. */
  lemma FallbackValueIsSpan(response: string, decode: Decoder)
    requires RejectsEmpty(decode)
    requires FallbackDoc(response).Some? && decode(FallbackDoc(response).value).Some?
    ensures DecodedSpan(response, decode(FallbackDoc(response).value).value, decode)
  {
    var doc := FallbackDoc(response).value;
    assert doc != [];
    var i, j := FindFirst(response, '{').value, FindLast(response, '}').value;
    FallbackAt(response, i, j);
    assert doc == response[i..j + 1];
  }

  /** Whatever the extractor returns, the decoder produced it from a span of the response that
      starts with `{` and ends with `}`: the fenced body, or the fallback document, which the
      decoder cannot accept empty. */
  lemma ResultIsBraceDelimited(response: string, decode: Decoder)
    requires RejectsEmpty(decode)
    ensures Extract(response, decode).Ok? ==>
              DecodedSpan(response, Extract(response, decode).value, decode)
  {
    var bodies := Fenced.FindAll(Strip(response));
    BodiesNeedNoStrip(Strip(response));
    var r := FirstDecoded(bodies, decode);
    if r.Some? {
      FencedValueIsSpan(response, decode, r.value.0, r.value.1);
    } else if FallbackDoc(response).Some? && decode(FallbackDoc(response).value).Some? {
      FallbackValueIsSpan(response, decode);
    }
  }

  /** A value decoded from a `{`-led span is an object when the decoder reads such documents
      only as objects. */
  lemma SpanIsObject(s: string, v: Value, decode: Decoder)
    requires BraceMeansObject(decode) && DecodedSpan(s, v, decode)
    ensures v.Object?
  {
    var lo: nat, hi: nat :| lo < hi <= |s| && s[lo] == '{' && s[hi - 1] == '}' &&
      decode(s[lo..hi]) == Some(v);
    assert s[lo..hi][0] == '{';
  }

  /** With a decoder that only reads `{`-led documents as objects, the result is an object. */
  lemma ResultIsObject(response: string, decode: Decoder)
    requires RejectsEmpty(decode) && BraceMeansObject(decode)
    ensures Extract(response, decode).Ok? ==> Extract(response, decode).value.Object?
  {
    ResultIsBraceDelimited(response, decode);
    if Extract(response, decode).Ok? {
      SpanIsObject(response, Extract(response, decode).value, decode);
    }
  }

  /** When every `}` comes before every `{`, the fallback slice is empty and the decoder's
      error for the empty document is re-raised, unless a fenced block decodes first; a
      fenced block needs a `{` before a `}`, so none does. */
  lemma InvertedBracesGiveDecodeError(response: string, decode: Decoder)
    requires '{' in response && '}' in response && AllBefore(response, '}', '{')
    requires RejectsEmpty(decode)
    ensures Extract(response, decode) == Err(DecodeError([]))
  {
    var t := Strip(response);
    FallbackIgnoresStrip(response);
    Fenced.BlocksNeedBraces(t);
    assert FallbackDoc(t) == Some([]);
    assert !('{' in t && '}' in t && !AllBefore(t, '}', '{'));
  }

  /** Surrounding whitespace never changes the outcome: the text is stripped first. */
  lemma PaddingIsIgnored(ws: string, response: string, ws': string, decode: Decoder)
    requires AllSpace(ws) && AllSpace(ws')
    ensures Extract(ws + response + ws', decode) == Extract(response, decode)
  {
    StripPadded(ws, response, ws');
  }

  /** A fence begins and ends with a backtick, so stripping leaves it as it is. */
  lemma FenceIsStripped(ws1: string, body: string, ws2: string)
    ensures Strip(Fenced.Fence(ws1, body, ws2)) == Fenced.Fence(ws1, body, ws2)
  {
    var f := Fenced.Fence(ws1, body, ws2);
    assert f[0] == '`';
    assert f[|f| - 1] == '`';
    StripUnpadded(f);
  }

  /** A reply that is one fenced block whose body decodes yields that body's value. */
  lemma SingleFencedBlock(ws1: string, body: string, ws2: string, decode: Decoder)
    requires Fenced.WellFormedFence(ws1, body, ws2) && decode(body).Some?
    ensures Extract(Fenced.Fence(ws1, body, ws2), decode) == Ok(decode(body).value)
  {
    FenceIsStripped(ws1, body, ws2);
    Fenced.FindAllOneFence(ws1, body, ws2);
    FirstDecodableBlockWins(Fenced.Fence(ws1, body, ws2), decode, 0);
  }

  /** Two fenced blocks where the first body is malformed: the second body's value is
      returned, not the decode error of the first. */
  lemma MalformedFirstBlockSkipped(ws1: string, body1: string, ws2: string, sep: string,
                                   ws3: string, body2: string, ws4: string, decode: Decoder)
    requires Fenced.WellFormedFence(ws1, body1, ws2) && Fenced.WellFormedFence(ws3, body2, ws4)
    requires '`' !in sep
    requires decode(body1).None? && decode(body2).Some?
    ensures Extract(Fenced.Fence(ws1, body1, ws2) + sep + Fenced.Fence(ws3, body2, ws4), decode)
            == Ok(decode(body2).value)
  {
    var f1, f2 := Fenced.Fence(ws1, body1, ws2), Fenced.Fence(ws3, body2, ws4);
    var s := f1 + sep + f2;
    assert s[0] == f1[0] == '`';
    assert s[|s| - 1] == f2[|f2| - 1] == '`';
    StripUnpadded(s);
    Fenced.FindAllTwoFences(ws1, body1, ws2, sep, ws3, body2, ws4);
    FirstDecodableBlockWins(s, decode, 1);
  }

  /** An object embedded in prose without fences: the text from its `{` to its `}` is what the
      decoder is given, when the prose before holds no `{` and the prose after no `}`. */
  lemma ProseWrappedObject(pre: string, obj: string, post: string, decode: Decoder)
    requires |obj| >= 2 && obj[0] == '{' && obj[|obj| - 1] == '}'
    requires '{' !in pre && '}' !in post
    requires '`' !in pre + obj + post
    ensures Extract(pre + obj + post, decode) == DecodeDoc(obj, decode)
  {
    var s := pre + obj + post;
    var i, j := |pre|, |pre| + |obj| - 1;
    assert s[i] == '{' && s[j] == '}';
    forall k | 0 <= k < i ensures s[k] != '{' {
      assert s[k] == pre[k];
    }
    forall k | j < k < |s| ensures s[k] != '}' {
      assert s[k] == post[k - |pre| - |obj|];
    }
    FindFirstAt(s, '{', i);
    FindLastAt(s, '}', j);
    FallbackAt(s, i, j);
    assert s[i..j + 1] == obj;
    Fenced.NoBacktickNoBlocks(Strip(s));
  }
}

=== FILE: fenced.dfy ===
/** `re.findall(r'```json\s*(\{.*?\})\s*```', text, re.DOTALL)`: the scan for fenced JSON blocks.

    At each index the regex engine tries the pattern; `\s*` is greedy and `.*?` is lazy.
    Because neither `{` nor a backtick is whitespace, each `\s*` can only stop where the
    whitespace run ends, so the only choice left is where the lazy group ends: the engine takes
    the earliest end that lets the rest of the pattern match. After a match the scan resumes at
    the match's end, so matches never overlap. */
module Fenced {
  import opened Wrappers
  import opened Text

  const OpenFence: string := "```json"
  const CloseFence: string := "```"

  /** A group ending just before `e` lets the pattern finish: `s[e-1]` is `}` and
      whitespace then the closing fence follow. */
  predicate ClosesAt(s: string, e: nat)
  {
    0 < e <= |s| && s[e - 1] == '}' && OccursAt(s, SkipSpace(s, e), CloseFence)
  }

  /** The lazy `.*?`: the least group end, from `from` on, at which the pattern can finish. */
  function FirstClose(s: string, from: nat): (r: Option<nat>)
    ensures r.Some? ==> from <= r.value <= |s| && ClosesAt(s, r.value)
    ensures forall e :: from <= e && (r.None? || e < r.value) ==> !ClosesAt(s, e)
    decreases |s| + 1 - from
  {
    if from > |s| then None
    else if ClosesAt(s, from) then Some(from)
    else FirstClose(s, from + 1)
  }

  /** One match: it spans `s[start..end]` and its group is `s[bodyStart..bodyEnd]`. */
  datatype Block = Block(start: nat, bodyStart: nat, bodyEnd: nat, end: nat)

  /** The layout every match has: opening fence, group from `{` to `}`, closing fence. */
  predicate Framed(s: string, m: Block)
  {
    && m.start + |OpenFence| <= m.bodyStart
    && m.bodyStart + 2 <= m.bodyEnd
    && m.bodyEnd + |CloseFence| <= m.end <= |s|
    && s[m.bodyStart] == '{'
    && s[m.bodyEnd - 1] == '}'
  }

  /** The engine's attempt at index `p`. */
  function MatchAt(s: string, p: nat): (r: Option<Block>)
    ensures r.Some? ==> r.value.start == p && Framed(s, r.value)
    ensures r.Some? ==> OccursAt(s, p, OpenFence) && OccursAt(s, r.value.end - |CloseFence|, CloseFence)
  {
    if OccursAt(s, p, OpenFence) then
      var b := SkipSpace(s, p + |OpenFence|);
      if b < |s| && s[b] == '{' then
        match FirstClose(s, b + 2)
        case Some(e) =>
          var k := SkipSpace(s, e);
          Some(Block(p, b, e, k + |CloseFence|))
        case None => None
      else None
    else None
  }

  /** The pattern matches at `p` with its group at `s[b..e]` and its closing fence at `k`,
      whichever of the possible matches the engine would prefer. */
  ghost predicate PatternAt(s: string, p: nat, b: nat, e: nat, k: nat)
  {
    && p + |OpenFence| <= b
    && b + 2 <= e <= k
    && k + |CloseFence| <= |s|
    && OccursAt(s, p, OpenFence)
    && (forall i :: p + |OpenFence| <= i < b ==> IsSpace(s[i]))
    && s[b] == '{'
    && s[e - 1] == '}'
    && (forall i :: e <= i < k ==> IsSpace(s[i]))
    && OccursAt(s, k, CloseFence)
  }

  /** `MatchAt` is the regex semantics: it finds a match exactly when the pattern can match at
      `p`, and among all ways to match it takes the one with the shortest group. */
  lemma MatchAtIsLazyMatch(s: string, p: nat)
    ensures MatchAt(s, p).Some? ==>
              var m := MatchAt(s, p).value;
              PatternAt(s, p, m.bodyStart, m.bodyEnd, m.end - |CloseFence|)
    ensures forall b: nat, e: nat, k: nat :: PatternAt(s, p, b, e, k) ==>
              MatchAt(s, p).Some? && MatchAt(s, p).value.bodyStart == b && MatchAt(s, p).value.bodyEnd <= e
  {
    forall b: nat, e: nat, k: nat | PatternAt(s, p, b, e, k)
      ensures MatchAt(s, p).Some? && MatchAt(s, p).value.bodyStart == b && MatchAt(s, p).value.bodyEnd <= e
    {
      SkipSpaceStopsAt(s, p + |OpenFence|, b);
      assert s[k] == '`';
      SkipSpaceStopsAt(s, e, k);
      assert ClosesAt(s, e);
    }
  }

  /** `re.findall` from index `from`: the matches in scan order, resuming after each one. */
  function Scan(s: string, from: nat): (blocks: seq<Block>)
    requires from <= |s|
    ensures forall i :: 0 <= i < |blocks| ==> from <= blocks[i].start && Framed(s, blocks[i])
    ensures forall i :: 0 < i < |blocks| ==> blocks[i - 1].end <= blocks[i].start
    decreases |s| - from
  {
    if from == |s| then []
    else
      match MatchAt(s, from)
      case Some(m) => [m] + Scan(s, m.end)
      case None => Scan(s, from + 1)
  }

  /** Every block the scan reports is the engine's match at the block's start. */
  lemma {:induction false} ScanYieldsMatches(s: string, from: nat)
    requires from <= |s|
    ensures forall i :: 0 <= i < |Scan(s, from)| ==>
              MatchAt(s, Scan(s, from)[i].start) == Some(Scan(s, from)[i])
    decreases |s| - from
  {
    if from < |s| {
      match MatchAt(s, from)
      case Some(m) =>
        ScanYieldsMatches(s, m.end);
        assert Scan(s, from) == [m] + Scan(s, m.end);
      case None =>
        ScanYieldsMatches(s, from + 1);
    }
  }

  /** The scan misses nothing: every index where the pattern can match is the start of a block
      or lies inside one, so matches are skipped only where an earlier block overlaps them. */
  lemma ScanIsLeftmost(s: string, from: nat, p: nat)
    requires from <= p <= |s|
    requires MatchAt(s, p).Some?
    ensures exists i :: 0 <= i < |Scan(s, from)| && Scan(s, from)[i].start <= p < Scan(s, from)[i].end
  {
    var i := CoveringBlock(s, from, p);
    assert Scan(s, from)[i].start <= p < Scan(s, from)[i].end;
  }

  /** The index of the block that covers `p`. */
  lemma {:induction false} CoveringBlock(s: string, from: nat, p: nat) returns (i: nat)
    requires from <= p <= |s|
    requires MatchAt(s, p).Some?
    ensures i < |Scan(s, from)| && Scan(s, from)[i].start <= p < Scan(s, from)[i].end
    decreases |s| - from
  {
    assert from < |s|;
    var r := MatchAt(s, from);
    if r.Some? {
      var m := r.value;
      ScanAtMatch(s, from);
      var rest := Scan(s, m.end);
      if p < m.end {
        i := 0;
        assert Scan(s, from)[i] == m;
      } else {
        var j := CoveringBlock(s, m.end, p);
        i := j + 1;
        assert Scan(s, from)[i] == rest[j];
      }
    } else {
      assert p != from;
      ScanNoMatch(s, from);
      i := CoveringBlock(s, from + 1, p);
    }
  }

  /** The groups of the matches, in scan order: the list `re.findall` returns. */
  function FindAll(s: string): (bodies: seq<string>)
    ensures |bodies| == |Scan(s, 0)|
    ensures forall i :: 0 <= i < |bodies| ==>
              |bodies[i]| >= 2 && bodies[i][0] == '{' && bodies[i][|bodies[i]| - 1] == '}'
  {
    var blocks := Scan(s, 0);
    seq(|blocks|, i requires 0 <= i < |blocks| => s[blocks[i].bodyStart..blocks[i].bodyEnd])
  }

  /** A block holds a `{` and, after it, a `}`: text without both, or whose every `}` comes
      before its every `{`, has no fenced block. */
  lemma BlocksNeedBraces(s: string)
    ensures |FindAll(s)| > 0 ==> '{' in s && '}' in s && !AllBefore(s, '}', '{')
  {
    var blocks := Scan(s, 0);
    if |blocks| > 0 {
      var m := blocks[0];
      assert Framed(s, m);
    }
  }

  /** Every block starts with a backtick, so text without one holds no fenced block. */
  lemma NoBacktickNoBlocks(s: string)
    ensures '`' !in s ==> FindAll(s) == []
  {
    var blocks := Scan(s, 0);
    if |blocks| > 0 {
      var m := blocks[0];
      ScanYieldsMatches(s, 0);
      assert MatchAt(s, m.start) == Some(m);
      FenceStartsWithBacktick(s, m.start);
    }
  }

  /** A fenced block as a model typically writes it: opening fence, whitespace, the object,
      whitespace, closing fence. */
  function Fence(ws1: string, body: string, ws2: string): string
  {
    OpenFence + ws1 + body + ws2 + CloseFence
  }

  /** The fence parts are whitespace, and the body is brace-delimited and holds no backtick. */
  predicate WellFormedFence(ws1: string, body: string, ws2: string)
  {
    && AllSpace(ws1)
    && AllSpace(ws2)
    && |body| >= 2
    && body[0] == '{'
    && body[|body| - 1] == '}'
    && '`' !in body
  }

  /** `s` holds `Fence(ws1, body, ws2)` at `p`, stated part by part. */
  predicate FenceAt(s: string, p: nat, ws1: string, body: string, ws2: string)
  {
    var b := p + |OpenFence| + |ws1|;
    var e := b + |body|;
    var k := e + |ws2|;
    && k + |CloseFence| <= |s|
    && OccursAt(s, p, OpenFence)
    && s[p + |OpenFence|..b] == ws1
    && s[b..e] == body
    && s[e..k] == ws2
    && OccursAt(s, k, CloseFence)
  }

  /** Where each part of `Fence(ws1, body, ws2)` sits. */
  lemma FenceParts(ws1: string, body: string, ws2: string)
    ensures var f := Fence(ws1, body, ws2);
            var b := |OpenFence| + |ws1|;
            var e := b + |body|;
            var k := e + |ws2|;
            && |f| == k + |CloseFence|
            && f[..|OpenFence|] == OpenFence
            && f[|OpenFence|..b] == ws1
            && f[b..e] == body
            && f[e..k] == ws2
            && f[k..] == CloseFence
  {
    var f1 := OpenFence + ws1;
    var f2 := f1 + body;
    var f3 := f2 + ws2;
    var f := f3 + CloseFence;
    assert f[..|f3|] == f3 && f[|f3|..] == CloseFence;
    assert f3[..|f2|] == f2 && f3[|f2|..] == ws2;
    assert f2[..|f1|] == f1 && f2[|f1|..] == body;
    assert f1[..|OpenFence|] == OpenFence && f1[|OpenFence|..] == ws1;
    assert f[|f2|..|f3|] == f3[|f2|..];
    assert f[|f1|..|f2|] == f2[|f1|..];
    assert f[|OpenFence|..|f1|] == f1[|OpenFence|..];
    assert f[..|OpenFence|] == f1[..|OpenFence|];
  }

  /** A copy of `Fence(ws1, body, ws2)` at `p` satisfies `FenceAt`. */
  lemma FenceLayout(s: string, p: nat, ws1: string, body: string, ws2: string)
    requires p + |Fence(ws1, body, ws2)| <= |s|
    requires s[p..p + |Fence(ws1, body, ws2)|] == Fence(ws1, body, ws2)
    ensures FenceAt(s, p, ws1, body, ws2)
  {
    var f := Fence(ws1, body, ws2);
    FenceParts(ws1, body, ws2);
    var b := |OpenFence| + |ws1|;
    var e := b + |body|;
    var k := e + |ws2|;
    SliceOfSlice(s, p, f, 0, |OpenFence|);
    SliceOfSlice(s, p, f, |OpenFence|, b);
    SliceOfSlice(s, p, f, b, e);
    SliceOfSlice(s, p, f, e, k);
    SliceOfSlice(s, p, f, k, |f|);
  }

  /** When the group of a possible match holds no backtick and ends with a non-whitespace
      character, no shorter group can finish the pattern, so the engine takes this match. */
  lemma OnlyMatchWithoutInnerFence(s: string, p: nat, b: nat, e: nat, k: nat)
    requires PatternAt(s, p, b, e, k)
    requires forall i :: b <= i < e ==> s[i] != '`'
    ensures MatchAt(s, p) == Some(Block(p, b, e, k + |CloseFence|))
  {
    MatchAtIsLazyMatch(s, p);
    var m := MatchAt(s, p).value;
    var k' := m.end - |CloseFence|;
    assert PatternAt(s, p, m.bodyStart, m.bodyEnd, k');
    assert s[k'] == '`' by {
      assert s[k'] == s[k'..k' + |CloseFence|][0];
    }
    assert s[k] == '`' by {
      assert s[k] == s[k..k + |CloseFence|][0];
    }
    assert !(b <= k' < e);
    assert !(m.bodyEnd <= e - 1 < k');
    assert m.bodyEnd == e;
    assert !(e <= k' < k);
    assert !(e <= k < k');
  }

  /** The parts of a well-formed fence at `p` make the pattern match there. */
  lemma FencePattern(s: string, p: nat, ws1: string, body: string, ws2: string)
    requires WellFormedFence(ws1, body, ws2)
    requires FenceAt(s, p, ws1, body, ws2)
    ensures var b := p + |OpenFence| + |ws1|;
            var e := b + |body|;
            && PatternAt(s, p, b, e, e + |ws2|)
            && forall i :: b <= i < e ==> s[i] != '`'
  {
    var b := p + |OpenFence| + |ws1|;
    var e := b + |body|;
    var k := e + |ws2|;
    assert forall i :: b <= i < e ==> s[i] == body[i - b];
    assert forall i :: p + |OpenFence| <= i < b ==> IsSpace(s[i]) by {
      forall i | p + |OpenFence| <= i < b ensures IsSpace(s[i]) {
        assert s[i] == ws1[i - p - |OpenFence|];
      }
    }
    assert forall i :: e <= i < k ==> IsSpace(s[i]) by {
      forall i | e <= i < k ensures IsSpace(s[i]) {
        assert s[i] == ws2[i - e];
      }
    }
    assert s[b] == '{' && s[e - 1] == '}';
  }

  /** The block a well-formed fence at `p` produces. */
  function FenceBlock(p: nat, ws1: string, body: string, ws2: string): Block
  {
    var b := p + |OpenFence| + |ws1|;
    Block(p, b, b + |body|, b + |body| + |ws2| + |CloseFence|)
  }

  /** A well-formed fence at `p` is matched exactly: the group is its body and the match ends
      with its closing fence. */
  lemma FenceMatch(s: string, p: nat, ws1: string, body: string, ws2: string)
    requires WellFormedFence(ws1, body, ws2)
    requires FenceAt(s, p, ws1, body, ws2)
    ensures MatchAt(s, p) == Some(FenceBlock(p, ws1, body, ws2))
  {
    FencePattern(s, p, ws1, body, ws2);
    var b := p + |OpenFence| + |ws1|;
    OnlyMatchWithoutInnerFence(s, p, b, b + |body|, b + |body| + |ws2|);
  }

  /** A match can only start at a backtick. */
  lemma FenceStartsWithBacktick(s: string, k: nat)
    ensures OccursAt(s, k, OpenFence) ==> s[k] == '`'
  {
    if OccursAt(s, k, OpenFence) {
      assert s[k] == s[k..k + |OpenFence|][0];
    }
  }

  /** Indices holding no backtick cannot start a match: the scan walks past them. */
  lemma {:induction false} ScanSkipsPlain(s: string, from: nat, to: nat)
    requires from <= to <= |s|
    requires forall i :: from <= i < to ==> s[i] != '`'
    ensures Scan(s, from) == Scan(s, to)
    decreases |s| - from
  {
    if from < to {
      FenceStartsWithBacktick(s, from);
      ScanSkipsPlain(s, from + 1, to);
    }
  }

  /** Where the engine matches, the scan records the match and resumes at its end. */
  lemma ScanAtMatch(s: string, p: nat)
    requires p <= |s| && MatchAt(s, p).Some?
    ensures MatchAt(s, p).value.end <= |s|
    ensures Scan(s, p) == [MatchAt(s, p).value] + Scan(s, MatchAt(s, p).value.end)
  {
  }

  lemma ScanNoMatch(s: string, p: nat)
    requires p < |s| && MatchAt(s, p).None?
    ensures Scan(s, p) == Scan(s, p + 1)
  {
  }

  lemma ConcatParts(a: string, b: string, c: string)
    ensures (a + b + c)[..|a|] == a
    ensures forall i :: |a| <= i < |a| + |b| ==> (a + b + c)[i] == b[i - |a|]
    ensures (a + b + c)[|a| + |b|..] == c
  {
  }

  /** A text that is one well-formed fence yields exactly its body. */
  lemma FindAllOneFence(ws1: string, body: string, ws2: string)
    requires WellFormedFence(ws1, body, ws2)
    ensures FindAll(Fence(ws1, body, ws2)) == [body]
  {
    var s := Fence(ws1, body, ws2);
    assert s[0..|s|] == s;
    FenceLayout(s, 0, ws1, body, ws2);
    FenceMatch(s, 0, ws1, body, ws2);
    ScanAtMatch(s, 0);
    var b := |OpenFence| + |ws1|;
    assert Scan(s, 0) == [Block(0, b, b + |body|, |s|)] + Scan(s, |s|);
    assert s[b..b + |body|] == body;
  }

  /** Two fences at `0` and `q`, with only backtick-free text between them, are the whole scan. */
  lemma ScanTwoFencesAt(s: string, q: nat, ws1: string, body1: string, ws2: string,
                        ws3: string, body2: string, ws4: string)
    requires WellFormedFence(ws1, body1, ws2) && WellFormedFence(ws3, body2, ws4)
    requires FenceAt(s, 0, ws1, body1, ws2) && FenceAt(s, q, ws3, body2, ws4)
    requires FenceBlock(0, ws1, body1, ws2).end <= q
    requires FenceBlock(q, ws3, body2, ws4).end == |s|
    requires forall i :: FenceBlock(0, ws1, body1, ws2).end <= i < q ==> s[i] != '`'
    ensures Scan(s, 0) == [FenceBlock(0, ws1, body1, ws2), FenceBlock(q, ws3, body2, ws4)]
  {
    var m1, m2 := FenceBlock(0, ws1, body1, ws2), FenceBlock(q, ws3, body2, ws4);
    assert m1.end <= m2.start <= |s| && m2.end == |s|;
    FenceMatch(s, 0, ws1, body1, ws2);
    FenceMatch(s, q, ws3, body2, ws4);
    ScanAtMatch(s, 0);
    ScanSkipsPlain(s, m1.end, m2.start);
    ScanAtMatch(s, m2.start);
    assert Scan(s, m2.start) == [m2];
  }

  /** The bodies of the two fences, read back through the blocks. */
  lemma FindAllTwoFencesAt(s: string, q: nat, ws1: string, body1: string, ws2: string,
                           ws3: string, body2: string, ws4: string)
    requires WellFormedFence(ws1, body1, ws2) && WellFormedFence(ws3, body2, ws4)
    requires FenceAt(s, 0, ws1, body1, ws2) && FenceAt(s, q, ws3, body2, ws4)
    requires FenceBlock(0, ws1, body1, ws2).end <= q
    requires FenceBlock(q, ws3, body2, ws4).end == |s|
    requires forall i :: FenceBlock(0, ws1, body1, ws2).end <= i < q ==> s[i] != '`'
    ensures FindAll(s) == [body1, body2]
  {
    var m1, m2 := FenceBlock(0, ws1, body1, ws2), FenceBlock(q, ws3, body2, ws4);
    assert s[m1.bodyStart..m1.bodyEnd] == body1;
    assert s[m2.bodyStart..m2.bodyEnd] == body2;
    ScanTwoFencesAt(s, q, ws1, body1, ws2, ws3, body2, ws4);
  }

  /** Two well-formed fences separated by text without a backtick yield both bodies, in order. */
  lemma FindAllTwoFences(ws1: string, body1: string, ws2: string, sep: string,
                         ws3: string, body2: string, ws4: string)
    requires WellFormedFence(ws1, body1, ws2) && WellFormedFence(ws3, body2, ws4)
    requires '`' !in sep
    ensures FindAll(Fence(ws1, body1, ws2) + sep + Fence(ws3, body2, ws4)) == [body1, body2]
  {
    var f1, f2 := Fence(ws1, body1, ws2), Fence(ws3, body2, ws4);
    var s := f1 + sep + f2;
    var q := |f1| + |sep|;
    ConcatParts(f1, sep, f2);
    assert s[0..|f1|] == f1;
    assert s[q..q + |f2|] == f2;
    FenceLayout(s, 0, ws1, body1, ws2);
    FenceLayout(s, q, ws3, body2, ws4);
    assert |f1| == FenceBlock(0, ws1, body1, ws2).end;
    assert q + |f2| == FenceBlock(q, ws3, body2, ws4).end;
    FindAllTwoFencesAt(s, q, ws1, body1, ws2, ws3, body2, ws4);
  }
}

=== FILE: json.dfy ===
/** The values `json.loads` produces, and the decoder itself as an oracle.
    The grammar of JSON is not modelled: the extractor only chooses which text to hand to the
    decoder and what to do when it refuses. */
module Json {
  import opened Wrappers

  /** A decoded JSON document. Numbers keep their literal text. */
  datatype Value =
    | Null
    | Bool(b: bool)
    | Number(literal: string)
    | String(s: string)
    | Array(elements: seq<Value>)
    | Object(members: seq<(string, Value)>)

  /** `json.loads`: a document decodes to a value, or the decoder raises `JSONDecodeError` (`None`). */
  type Decoder = string -> Option<Value>

  /** `json.loads("")` raises: the empty document is never valid JSON. */
  predicate RejectsEmpty(decode: Decoder)
  {
    decode([]).None?
  }

  /** A JSON text whose first character is `{` can only denote an object. */
  ghost predicate BraceMeansObject(decode: Decoder)
  {
    forall doc :: |doc| > 0 && doc[0] == '{' && decode(doc).Some? ==> decode(doc).value.Object?
  }
}

=== FILE: service.dfy ===
/** `POST /extract`: from a request and the outcomes of the foreign steps (image decoding, model
    loading, saving the temporary file, generation) to the HTTP status and JSON body.

    The model's text goes through `extract_json_from_response`; every exception is mapped to a
    500 reply by the handler that catches it. */
module Service {
  import opened Wrappers
  import opened Text
  import opened Json
  import opened Extractor
  import opened Uploads

  /** The JSON body of a reply: the receipt, or an error with or without `raw_response`. */
  datatype Body =
    | Receipt(data: Value)
    | Failure(error: string)
    | FailureWithRaw(error: string, raw: string)

  datatype Reply = Reply(status: int, body: Body)

  /** An exception reaching the handlers around generation and extraction, by the clause that
      catches it: `json.JSONDecodeError`, another `ValueError`, anything else. `message` is
      `str(e)`. */
  datatype Raised =
    | JsonDecodeError(doc: string)
    | ValueError(message: string)
    | OtherError(message: string)

  /** What `mlx_vlm.generate` and the statistics log line did: generation raised before
      `response` was bound, or it produced `text` and the log line that reads the result's
      token counts raised `logError` or nothing. */
  datatype Generation =
    | GenerationFailed(error: Raised)
    | Generated(text: string, logError: Option<Raised>)

  /** The foreign steps of the handler, as their outcomes: whether PIL can open the upload,
      whether the model loads, what saving the temporary PNG raised, and the generation. */
  datatype Environment = Environment(
    imageDecodes: bool,
    modelLoads: bool,
    saveError: Option<string>,
    generation: Generation)

  /** How many characters of the model's text a failure reply echoes back. */
  const RawLimit: nat := 1000

  const InvalidImageMessage: string := "Invalid image file"
  const ModelInitMessage: string := "Model initialization failed"
  const ParseFailureMessage: string := "Failed to parse model response as JSON"
  const InferencePrefix: string := "Model inference failed: "
  const InternalPrefix: string := "Internal server error: "
  const NoResponse: string := "No response"

  /** `str(e)` of the `UnboundLocalError` raised when the JSON handler reads `response` before
      it was ever bound (CPython 3.11 and later). */
  const UnboundResponseMessage: string :=
    "cannot access local variable 'response' where it is not associated with a value"

  /** The outer handler: any exception that escapes the request checks or the inner handlers. */
  function Internal(message: string): (r: Reply)
    ensures r.status == 500 && r.body.Failure?
    ensures |r.body.error| >= |InternalPrefix|
    ensures r.body.error[..|InternalPrefix|] == InternalPrefix
    ensures r.body.error[|InternalPrefix|..] == message
  {
    Reply(500, Failure(InternalPrefix + message))
  }

  /** The exception `extract_json_from_response` raises for each way it fails. */
  function ExtractionRaised(e: ExtractError): (r: Raised)
    ensures r.JsonDecodeError? <==> e.DecodeError?
    ensures e.NotFound? ==> r == ValueError(NotFoundMessage)
  {
    match e
    case NotFound => ValueError(NotFoundMessage)
    case DecodeError(doc) => JsonDecodeError(doc)
  }

  /** The three `except` clauses around generation and extraction. `response` is the model's
      text when it had been bound before the exception. */
  function Handle(e: Raised, response: Option<string>): (r: Reply)
    ensures r.status == 500
    ensures r.body.FailureWithRaw? <==> !(e.JsonDecodeError? && response.None?)
    ensures r.body.FailureWithRaw? && response.Some? ==> r.body.raw == Truncate(response.value, RawLimit)
    ensures r.body.FailureWithRaw? && response.None? ==> r.body.raw == NoResponse
  {
    match e
    case JsonDecodeError(_) =>
      if response.Some? then Reply(500, FailureWithRaw(ParseFailureMessage, Truncate(response.value, RawLimit)))
      else Internal(UnboundResponseMessage)
    case ValueError(m) => Reply(500, FailureWithRaw(InferencePrefix + m, RawOrNone(response)))
    case OtherError(m) => Reply(500, FailureWithRaw(InferencePrefix + m, RawOrNone(response)))
  }

  /** `response[:1000] if 'response' in locals() else "No response"`. */
  function RawOrNone(response: Option<string>): (raw: string)
    ensures response.Some? ==> raw <= response.value && |raw| <= RawLimit
    ensures response.None? ==> raw == NoResponse
  {
    if response.Some? then Truncate(response.value, RawLimit) else NoResponse
  }

  /** The inner `try`: generation, the log line, extraction, and the handlers around them. */
  function Infer(gen: Generation, decode: Decoder): (r: Reply)
    ensures r.status == 200 || r.status == 500
    ensures r.status == 200 <==>
              gen.Generated? && gen.logError.None? && Extract(gen.text, decode).Ok?
    ensures r.status == 200 ==> r.body == Receipt(Extract(gen.text, decode).value)
  {
    match gen
    case GenerationFailed(e) => Handle(e, None)
    case Generated(text, Some(e)) => Handle(e, Some(text))
    case Generated(text, None) =>
      match Extract(text, decode)
      case Ok(v) => Reply(200, Receipt(v))
      case Err(e) => Handle(ExtractionRaised(e), Some(text))
  }

  /** The whole `extract_receipt` handler. `order` is the order in which Python prints the set
      of allowed extensions. */
  function HandleUpload(image: Option<FilePart>, maxSize: int, order: seq<string>,
                        env: Environment, decode: Decoder): (r: Reply)
    requires Enumerates(order, AllowedExtensions)
    ensures r.status in {200, 400, 500}
    ensures r.status == 400 <==> Validate(image, maxSize).Some? || !env.imageDecodes
    ensures Validate(image, maxSize).Some? ==>
              r.body == Failure(RejectionMessage(Validate(image, maxSize).value, order, maxSize))
    ensures Validate(image, maxSize).None? && !env.imageDecodes ==> r.body == Failure(InvalidImageMessage)
    ensures Validate(image, maxSize).None? && env.imageDecodes && !env.modelLoads ==>
              r == Reply(500, Failure(ModelInitMessage))
    ensures Validate(image, maxSize).None? && env.imageDecodes && env.modelLoads && env.saveError.Some? ==>
              r == Internal(env.saveError.value)
    ensures Validate(image, maxSize).None? && env.imageDecodes && env.modelLoads && env.saveError.None? ==>
              r == Infer(env.generation, decode)
  {
    match Validate(image, maxSize)
    case Some(rejection) => Reply(400, Failure(RejectionMessage(rejection, order, maxSize)))
    case None =>
      if !env.imageDecodes then Reply(400, Failure(InvalidImageMessage))
      else if !env.modelLoads then Reply(500, Failure(ModelInitMessage))
      else if env.saveError.Some? then Internal(env.saveError.value)
      else Infer(env.generation, decode)
  }

  /** Two requests refused by different checks get different 400 bodies: the reply names the
      check that failed, whatever the set's print order. */
  lemma RefusalNamesFailedCheck(image1: Option<FilePart>, image2: Option<FilePart>, maxSize: int,
                                order: seq<string>, env1: Environment, env2: Environment,
                                decode: Decoder)
    requires Enumerates(order, AllowedExtensions)
    requires Validate(image1, maxSize).Some? && Validate(image2, maxSize).Some?
    requires Validate(image1, maxSize) != Validate(image2, maxSize)
    ensures HandleUpload(image1, maxSize, order, env1, decode).body !=
            HandleUpload(image2, maxSize, order, env2, decode).body
  {
    RejectionMessagesDiffer(Validate(image1, maxSize).value, Validate(image2, maxSize).value, order, maxSize);
  }

  /** Once the model has produced its text, every failure reaches the client as a 500 reply that
      echoes the first 1000 characters of that text. */
  lemma FailureAfterGenerationEchoesText(image: Option<FilePart>, maxSize: int, order: seq<string>,
                                         env: Environment, decode: Decoder)
    requires Enumerates(order, AllowedExtensions)
    requires Validate(image, maxSize).None? && env.imageDecodes && env.modelLoads
    requires env.saveError.None? && env.generation.Generated?
    ensures var r := HandleUpload(image, maxSize, order, env, decode);
            r.status != 200 ==>
              r.status == 500 && r.body.FailureWithRaw? && r.body.raw == Truncate(env.generation.text, RawLimit)
  {
  }

  /** The echoed `raw_response` is the start of the model's text, its first 1000 characters or
      all of it when it is shorter. */
  lemma RawResponseIsPrefix(text: string, logError: Option<Raised>, decode: Decoder)
    ensures var r := Infer(Generated(text, logError), decode);
            r.body.FailureWithRaw? ==>
              && r.body.raw <= text
              && |r.body.raw| == if |text| < RawLimit then |text| else RawLimit
  {
  }

  /** When generation itself failed there is no text to echo: `raw_response` says so, unless the
      failure was a `JSONDecodeError`, whose handler then fails on the unbound `response` and
      the outer handler answers. */
  lemma GenerationFailureReplies(e: Raised, decode: Decoder)
    ensures e.JsonDecodeError? ==>
              Infer(GenerationFailed(e), decode) == Internal(UnboundResponseMessage)
    ensures !e.JsonDecodeError? ==>
              Infer(GenerationFailed(e), decode) == Reply(500, FailureWithRaw(InferencePrefix + e.message, NoResponse))
  {
  }

  /** Extraction failures, once generation succeeded: "not found" is reported through the
      `ValueError` clause with its message, a decode error through the `JSONDecodeError` clause;
      both echo the text. */
  lemma ExtractionFailureReplies(text: string, decode: Decoder)
    ensures Extract(text, decode) == Err(NotFound) ==>
              Infer(Generated(text, None), decode) ==
                Reply(500, FailureWithRaw(InferencePrefix + NotFoundMessage, Truncate(text, RawLimit)))
    ensures Extract(text, decode).Err? && Extract(text, decode).error.DecodeError? ==>
              Infer(Generated(text, None), decode) ==
                Reply(500, FailureWithRaw(ParseFailureMessage, Truncate(text, RawLimit)))
  {
  }

  /** A text without a `{` or a `}` always ends in the "not found" reply; with both, never. */
  lemma NotFoundReplyIffBraceMissing(text: string, decode: Decoder)
    ensures Infer(Generated(text, None), decode).body ==
              FailureWithRaw(InferencePrefix + NotFoundMessage, Truncate(text, RawLimit))
            <==> '{' !in text || '}' !in text
  {
    NotFoundIffBraceMissing(text, decode);
    ExtractionFailureReplies(text, decode);
    var notFound := InferencePrefix + NotFoundMessage;
    assert ParseFailureMessage[0] == 'F' && notFound[0] == 'M';
  }

  /** A refused request is answered before anything foreign runs: the reply does not depend on
      the image, the model or the generation. */
  lemma RejectionIgnoresEnvironment(image: Option<FilePart>, maxSize: int, order: seq<string>,
                                    env1: Environment, env2: Environment, decode: Decoder)
    requires Enumerates(order, AllowedExtensions)
    requires Validate(image, maxSize).Some?
    ensures HandleUpload(image, maxSize, order, env1, decode) ==
            HandleUpload(image, maxSize, order, env2, decode)
    ensures HandleUpload(image, maxSize, order, env1, decode).body.Failure?
  {
  }

  /** A receipt comes back exactly when every check passes, every foreign step succeeds and the
      extraction finds a decodable object; it is then the extracted value. */
  lemma SuccessIff(image: Option<FilePart>, maxSize: int, order: seq<string>, env: Environment,
                   decode: Decoder)
    requires Enumerates(order, AllowedExtensions)
    ensures var r := HandleUpload(image, maxSize, order, env, decode);
            r.status == 200 <==>
              && image.Some? && AllowedFile(image.value.filename) && image.value.size <= maxSize
              && env.imageDecodes && env.modelLoads && env.saveError.None?
              && env.generation.Generated? && env.generation.logError.None?
              && Extract(env.generation.text, decode).Ok?
    ensures var r := HandleUpload(image, maxSize, order, env, decode);
            r.status == 200 ==> r.body == Receipt(Extract(env.generation.text, decode).value)
  {
    AcceptedIff(image, maxSize);
  }

  /** With a decoder that reads `{`-led documents only as objects, a successful reply always
      carries a JSON object. */
  lemma SuccessCarriesObject(image: Option<FilePart>, maxSize: int, order: seq<string>,
                             env: Environment, decode: Decoder)
    requires Enumerates(order, AllowedExtensions)
    requires RejectsEmpty(decode) && BraceMeansObject(decode)
    ensures var r := HandleUpload(image, maxSize, order, env, decode);
            r.status == 200 ==> r.body.Receipt? && r.body.data.Object?
  {
    SuccessIff(image, maxSize, order, env, decode);
    if env.generation.Generated? {
      ResultIsObject(env.generation.text, decode);
    }
  }
}

=== FILE: text.dfy ===
/** The Python string primitives the service relies on: `str.strip`, `str.find`, `str.rfind`,
    `str.lower`, prefix slicing and decimal rendering of integers. Characters are Unicode scalar
    values: Python strings may also hold lone surrogates (U+D800-U+DFFF), which are not
    represented here. Whitespace and case are ASCII only. */
module Text {
  import opened Wrappers

  /** Whitespace as Python's `str.isspace` and the regex class `\s` classify ASCII characters:
      tab, line feed, vertical tab, form feed, carriage return, the separators 0x1C-0x1F, space. */
  predicate IsSpace(c: char)
  {
    c == ' ' || ('\t' <= c <= '\r') || ('\U{1C}' <= c <= '\U{1F}')
  }

  predicate AllSpace(s: string)
  {
    forall i :: 0 <= i < |s| ==> IsSpace(s[i])
  }

  /** Where a run of whitespace that starts at `i` ends: the first non-whitespace index from `i` on.
      This is both where `strip` stops removing leading whitespace and where a greedy `\s*` stops. */
  function SkipSpace(s: string, i: nat): (j: nat)
    requires i <= |s|
    ensures i <= j <= |s|
    ensures forall k :: i <= k < j ==> IsSpace(s[k])
    ensures j < |s| ==> !IsSpace(s[j])
    decreases |s| - i
  {
    if i < |s| && IsSpace(s[i]) then SkipSpace(s, i + 1) else i
  }

  /** A whitespace run followed by a non-whitespace character is exactly what `\s*` consumes. */
  lemma SkipSpaceStopsAt(s: string, i: nat, j: nat)
    requires i <= j < |s|
    requires forall k :: i <= k < j ==> IsSpace(s[k])
    requires !IsSpace(s[j])
    ensures SkipSpace(s, i) == j
  {
  }

  /** Where a run of whitespace that ends just before `n` begins, scanning backwards. */
  function SkipSpaceBack(s: string, n: nat): (j: nat)
    requires n <= |s|
    ensures j <= n
    ensures forall k :: j <= k < n ==> IsSpace(s[k])
    ensures 0 < j ==> !IsSpace(s[j - 1])
  {
    if 0 < n && IsSpace(s[n - 1]) then SkipSpaceBack(s, n - 1) else n
  }

  /** The half-open range of `s` that `s.strip()` keeps: everything outside it is whitespace,
      and when it is not empty it starts and ends with a non-whitespace character. */
  function StripBounds(s: string): (b: (nat, nat))
    ensures b.0 <= b.1 <= |s|
    ensures forall i :: 0 <= i < b.0 ==> IsSpace(s[i])
    ensures forall i :: b.1 <= i < |s| ==> IsSpace(s[i])
    ensures b.0 < b.1 ==> !IsSpace(s[b.0]) && !IsSpace(s[b.1 - 1])
  {
    var lo := SkipSpace(s, 0);
    if lo == |s| then (lo, lo) else (lo, SkipSpaceBack(s, |s|))
  }

  /** `s.strip()` with no argument. */
  function Strip(s: string): (r: string)
    ensures |r| <= |s|
    ensures r == [] || (!IsSpace(r[0]) && !IsSpace(r[|r| - 1]))
  {
    var b := StripBounds(s);
    s[b.0..b.1]
  }

  /** `strip` removes only whitespace: every character it keeps comes from `s`, and every
      non-whitespace character of `s` is kept. */
  lemma StripKeepsText(s: string)
    ensures forall c :: c in Strip(s) ==> c in s
    ensures forall c :: c in s && !IsSpace(c) ==> c in Strip(s)
  {
    var b := StripBounds(s);
    assert forall i :: 0 <= i < |s| && !IsSpace(s[i]) ==> b.0 <= i < b.1 && s[i] == s[b.0..b.1][i - b.0];
  }

  /** The strip range is determined by where the first and last non-whitespace characters are. */
  lemma StripBoundsAt(s: string, lo: nat, hi: nat)
    requires lo < hi <= |s|
    requires forall i :: 0 <= i < lo ==> IsSpace(s[i])
    requires forall i :: hi <= i < |s| ==> IsSpace(s[i])
    requires !IsSpace(s[lo]) && !IsSpace(s[hi - 1])
    ensures StripBounds(s) == (lo, hi)
  {
    var b := StripBounds(s);
    assert b.0 < b.1;
  }

  /** A string of whitespace strips to nothing. */
  lemma StripAllSpace(s: string)
    requires AllSpace(s)
    ensures Strip(s) == []
  {
    var b := StripBounds(s);
    if b.0 < b.1 {
      assert false;
    }
  }

  /** Whitespace added on either side never changes what `strip` returns. */
  lemma StripPadded(ws: string, t: string, ws': string)
    requires AllSpace(ws) && AllSpace(ws')
    ensures Strip(ws + t + ws') == Strip(t)
  {
    StripPadRight(ws + t, ws');
    StripPadLeft(ws, t);
  }

  lemma StripPadLeft(ws: string, t: string)
    requires AllSpace(ws)
    ensures Strip(ws + t) == Strip(t)
  {
    var bt := StripBounds(t);
    if bt.0 == bt.1 {
      StripPadLeftBlank(ws, t);
    } else {
      StripPadLeftText(ws, t, bt.0, bt.1);
    }
  }

  lemma StripPadLeftBlank(ws: string, t: string)
    requires AllSpace(ws)
    requires StripBounds(t).0 == StripBounds(t).1
    ensures Strip(ws + t) == Strip(t) == []
  {
    SpaceAfterSpace(ws, t);
    StripAllSpace(ws + t);
  }

  lemma StripPadLeftText(ws: string, t: string, lo: nat, hi: nat)
    requires AllSpace(ws)
    requires StripBounds(t) == (lo, hi) && lo < hi
    ensures Strip(ws + t) == Strip(t)
  {
    var s := ws + t;
    StripBoundsShift(ws, t, lo, hi);
    assert s[|ws|..|ws| + |t|] == t;
    SliceOfSlice(s, |ws|, t, lo, hi);
    StripIsSlice(s, |ws| + lo, |ws| + hi);
    StripIsSlice(t, lo, hi);
  }

  lemma StripIsSlice(s: string, lo: nat, hi: nat)
    requires StripBounds(s) == (lo, hi)
    ensures Strip(s) == s[lo..hi]
  {
  }

  /** Whitespace followed by a string that strips to nothing is whitespace throughout. */
  lemma SpaceAfterSpace(ws: string, t: string)
    requires AllSpace(ws)
    requires StripBounds(t).0 == StripBounds(t).1
    ensures AllSpace(ws + t)
  {
    var s := ws + t;
    forall i | 0 <= i < |s| ensures IsSpace(s[i]) {
      if i >= |ws| {
        assert s[i] == t[i - |ws|];
      }
    }
  }

  /** Leading whitespace moves the strip range of `t` right by its own length. */
  lemma StripBoundsShift(ws: string, t: string, lo: nat, hi: nat)
    requires AllSpace(ws)
    requires StripBounds(t) == (lo, hi) && lo < hi
    ensures StripBounds(ws + t) == (|ws| + lo, |ws| + hi)
  {
    var s := ws + t;
    var n := |ws|;
    forall i | 0 <= i < n + lo ensures IsSpace(s[i]) {
      if i >= n {
        assert s[i] == t[i - n];
      }
    }
    forall i | n + hi <= i < |s| ensures IsSpace(s[i]) {
      assert s[i] == t[i - n];
    }
    assert s[n + lo] == t[lo] && s[n + hi - 1] == t[hi - 1];
    StripBoundsAt(s, n + lo, n + hi);
  }

  lemma StripPadRight(t: string, ws: string)
    requires AllSpace(ws)
    ensures Strip(t + ws) == Strip(t)
  {
    var s := t + ws;
    var bt := StripBounds(t);
    if bt.0 == bt.1 {
      assert AllSpace(s) by {
        forall i | 0 <= i < |s| ensures IsSpace(s[i]) {
          if i >= |t| {
            assert s[i] == ws[i - |t|];
          }
        }
      }
      StripAllSpace(s);
      StripAllSpace(t);
    } else {
      assert forall i :: 0 <= i < bt.0 ==> s[i] == t[i];
      assert forall i :: bt.1 <= i < |s| ==> IsSpace(s[i]) by {
        forall i | bt.1 <= i < |s| ensures IsSpace(s[i]) {
          if i >= |t| {
            assert s[i] == ws[i - |t|];
          }
        }
      }
      StripBoundsAt(s, bt.0, bt.1);
      assert s[bt.0..bt.1] == t[bt.0..bt.1];
    }
  }

  /** A string that neither starts nor ends with whitespace is its own `strip`. */
  lemma StripUnpadded(s: string)
    requires |s| > 0 ==> !IsSpace(s[0]) && !IsSpace(s[|s| - 1])
    ensures Strip(s) == s
  {
    var b := StripBounds(s);
    if |s| > 0 {
      assert b.0 == 0;
      assert b.1 == |s|;
    }
  }

  /** `s.find(c)`: the index of the first `c`, or none when `c` does not occur. */
  function FindFirst(s: string, c: char): (r: Option<nat>)
    ensures r.None? <==> c !in s
    ensures r.Some? ==> r.value < |s| && s[r.value] == c
    ensures r.Some? ==> forall i :: 0 <= i < r.value ==> s[i] != c
  {
    FindFrom(s, c, 0)
  }

  /** The first `c` at or after index `i`. */
  function FindFrom(s: string, c: char, i: nat): (r: Option<nat>)
    requires i <= |s|
    ensures r.None? <==> forall k :: i <= k < |s| ==> s[k] != c
    ensures r.Some? ==> i <= r.value < |s| && s[r.value] == c
    ensures r.Some? ==> forall k :: i <= k < r.value ==> s[k] != c
    decreases |s| - i
  {
    if i == |s| then None
    else if s[i] == c then Some(i)
    else FindFrom(s, c, i + 1)
  }

  /** `s.rfind(c)`: the index of the last `c`, or none when `c` does not occur. */
  function FindLast(s: string, c: char): (r: Option<nat>)
    ensures r.None? <==> c !in s
    ensures r.Some? ==> r.value < |s| && s[r.value] == c
    ensures r.Some? ==> forall i :: r.value < i < |s| ==> s[i] != c
  {
    FindBefore(s, c, |s|)
  }

  /** The last `c` before index `n`. */
  function FindBefore(s: string, c: char, n: nat): (r: Option<nat>)
    requires n <= |s|
    ensures r.None? <==> forall k :: 0 <= k < n ==> s[k] != c
    ensures r.Some? ==> r.value < n && s[r.value] == c
    ensures r.Some? ==> forall k :: r.value < k < n ==> s[k] != c
  {
    if n == 0 then None
    else if s[n - 1] == c then Some(n - 1)
    else FindBefore(s, c, n - 1)
  }

  /** The first occurrence of `c` is where `find` points. */
  lemma FindFirstAt(s: string, c: char, i: nat)
    requires i < |s| && s[i] == c
    requires forall j :: 0 <= j < i ==> s[j] != c
    ensures FindFirst(s, c) == Some(i)
  {
    var r := FindFirst(s, c);
    assert c in s;
  }

  /** The last occurrence of `c` is where `rfind` points. */
  lemma FindLastAt(s: string, c: char, i: nat)
    requires i < |s| && s[i] == c
    requires forall j :: i < j < |s| ==> s[j] != c
    ensures FindLast(s, c) == Some(i)
  {
    var r := FindLast(s, c);
    assert c in s;
  }

  /** `s` holds `f` starting at index `k`. */
  predicate OccursAt(s: string, k: nat, f: string)
  {
    k + |f| <= |s| && s[k..k + |f|] == f
  }

  /** `f` occurs somewhere in `s`: Python's `f in s` on strings. */
  ghost predicate Contains(s: string, f: string)
  {
    exists k: nat :: OccursAt(s, k, f)
  }

  /** A text found in `x` is found in `a + x`. */
  lemma ContainsAfter(a: string, x: string, f: string)
    requires Contains(x, f)
    ensures Contains(a + x, f)
  {
    var k: nat :| OccursAt(x, k, f);
    var s := a + x;
    assert s[|a|..] == x;
    assert s[|a| + k..|a| + k + |f|] == x[k..k + |f|];
    assert OccursAt(s, |a| + k, f);
  }

  /** A text found in `x` is found in `x + b`. */
  lemma ContainsBefore(x: string, b: string, f: string)
    requires Contains(x, f)
    ensures Contains(x + b, f)
  {
    var k: nat :| OccursAt(x, k, f);
    var s := x + b;
    assert s[..|x|] == x;
    assert s[k..k + |f|] == x[k..k + |f|];
    assert OccursAt(s, k, f);
  }

  /** Where `s` holds `f` at `p`, a slice of `f` is the slice of `s` shifted by `p`. */
  lemma SliceOfSlice(s: string, p: nat, f: string, x: nat, y: nat)
    requires p + |f| <= |s| && s[p..p + |f|] == f
    requires x <= y <= |f|
    ensures s[p + x..p + y] == f[x..y]
  {
    forall i | 0 <= i < y - x
      ensures s[p + x..p + y][i] == f[x..y][i]
    {
      assert s[p + x + i] == s[p..p + |f|][x + i];
    }
  }

  /** Every `a` in `s` comes before every `b`. */
  predicate AllBefore(s: string, a: char, b: char)
  {
    forall i, j :: 0 <= i < |s| && 0 <= j < |s| && s[i] == a && s[j] == b ==> i < j
  }

  /** `c.lower()` for ASCII letters; every other character is left as it is. */
  function LowerChar(c: char): char
  {
    if 'A' <= c <= 'Z' then (c as int - 'A' as int + 'a' as int) as char else c
  }

  /** `s.lower()`, character by character. */
  function ToLower(s: string): (r: string)
    ensures |r| == |s|
  {
    seq(|s|, i requires 0 <= i < |s| => LowerChar(s[i]))
  }

  /** `s[:n]`: the longest prefix of `s` that has at most `n` characters. */
  function Truncate(s: string, n: nat): (r: string)
    ensures |r| == if |s| < n then |s| else n
    ensures r <= s
  {
    if |s| <= n then s else s[..n]
  }

  function DigitChar(d: nat): char
    requires d < 10
  {
    ('0' as int + d) as char
  }

  predicate IsDigit(c: char)
  {
    '0' <= c <= '9'
  }

  function DigitValue(c: char): nat
    requires IsDigit(c)
  {
    c as int - '0' as int
  }

  /** The number a string of decimal digits denotes. */
  function DecimalValue(s: string): nat
    requires forall i :: 0 <= i < |s| ==> IsDigit(s[i])
  {
    if |s| == 0 then 0
    else 10 * DecimalValue(s[..|s| - 1]) + DigitValue(s[|s| - 1])
  }

  /** `str(n)` for a natural number: its decimal digits, with no leading zero. */
  function DecimalString(n: nat): (r: string)
    ensures |r| > 0
    ensures forall i :: 0 <= i < |r| ==> IsDigit(r[i])
    ensures |r| > 1 ==> r[0] != '0'
  {
    if n < 10 then [DigitChar(n)] else DecimalString(n / 10) + [DigitChar(n % 10)]
  }

  /** Rendering a number in decimal loses nothing: reading the digits back gives the number. */
  lemma {:induction false} DecimalRoundTrip(n: nat)
    ensures DecimalValue(DecimalString(n)) == n
  {
    if n >= 10 {
      var r := DecimalString(n);
      assert r[..|r| - 1] == DecimalString(n / 10);
      DecimalRoundTrip(n / 10);
    }
  }

  /** `str(i)` for any integer: a minus sign in front of the digits of a negative number. */
  function IntString(i: int): (r: string)
    ensures |r| > 0
    ensures i < 0 <==> r[0] == '-'
    ensures i >= 0 ==> r == DecimalString(i)
    ensures i < 0 ==> r[1..] == DecimalString(-i)
  {
    if i < 0 then "-" + DecimalString(-i) else DecimalString(i)
  }
}

=== FILE: uploads.dfy ===
/** The request checks of `POST /extract` that run before any image is decoded: presence of the
    `image` part, a non-empty file name, an allowed extension, and the size limit; and the
    400 messages each failed check produces. */
module Uploads {
  import opened Wrappers
  import opened Text

  /** `ALLOWED_EXTENSIONS`. */
  const AllowedExtensions: set<string> := {"png", "jpg", "jpeg", "webp"}

  /** `MAX_IMAGE_SIZE` when the environment does not set it: 10 MiB. */
  const DefaultMaxImageSize: int := 10 * 1024 * 1024

  /** `filename.rsplit('.', 1)[1]`: the text after the last dot, absent when there is no dot. */
  function Extension(name: string): (r: Option<string>)
    ensures r.None? <==> '.' !in name
    ensures r.Some? ==> |r.value| < |name| && name[|name| - |r.value| - 1] == '.'
    ensures r.Some? ==> name[|name| - |r.value|..] == r.value && '.' !in r.value
  {
    match FindLast(name, '.')
    case None => None
    case Some(k) =>
      var ext := name[k + 1..];
      assert forall i :: 0 <= i < |ext| ==> ext[i] == name[k + 1 + i];
      Some(ext)
  }

  /** `name[k]` is the last dot of `name`, and what follows it, lower-cased, is an allowed
      extension. */
  predicate AllowedAfter(name: string, k: nat)
  {
    k < |name| && name[k] == '.' && '.' !in name[k + 1..] && ToLower(name[k + 1..]) in AllowedExtensions
  }

  /** `allowed_file(filename)`. */
  function AllowedFile(name: string): (ok: bool)
    ensures ok <==> exists k: nat :: AllowedAfter(name, k)
  {
    var r := Extension(name);
    if r.None? then
      assert forall k: nat :: k < |name| ==> name[k] != '.';
      false
    else
      var k := |name| - |r.value| - 1;
      assert name[k + 1..] == r.value;
      assert ToLower(r.value) in AllowedExtensions ==> AllowedAfter(name, k);
      OnlyLastDotCounts(name, k);
      ToLower(r.value) in AllowedExtensions
  }

  /** Only the last dot can separate an allowed extension. */
  lemma OnlyLastDotCounts(name: string, k: nat)
    requires k < |name| && name[k] == '.' && '.' !in name[k + 1..]
    ensures forall j: nat :: j != k ==> !AllowedAfter(name, j)
  {
    forall j: nat | j != k ensures !AllowedAfter(name, j) {
      if j < k {
        assert name[j + 1..][k - j - 1] == '.';
      } else if j < |name| {
        assert name[j] == name[k + 1..][j - k - 1];
      }
    }
  }

  /** A name with no dot, or with nothing but the dot, is never allowed; in particular the
      empty name. */
  lemma NoDotNotAllowed(name: string)
    ensures '.' !in name ==> !AllowedFile(name)
    ensures |name| > 0 && name[|name| - 1] == '.' ==> !AllowedFile(name)
  {
    if '.' !in name {
      forall k: nat ensures !AllowedAfter(name, k) {
        if k < |name| {
          assert name[k] in name;
        }
      }
    }
    if |name| > 0 && name[|name| - 1] == '.' {
      forall k: nat ensures !AllowedAfter(name, k) {
        if k < |name| - 1 {
          assert name[k + 1..][|name| - k - 2] == '.';
        } else if k == |name| - 1 {
          assert ToLower(name[k + 1..]) == [];
        }
      }
    }
  }

  /** Lower-casing, character by character, commutes with slicing. */
  lemma ToLowerSlice(s: string, i: nat)
    requires i <= |s|
    ensures ToLower(s)[i..] == ToLower(s[i..])
  {
  }

  /** Lower-casing twice is lower-casing once. */
  lemma ToLowerIdempotent(s: string)
    ensures ToLower(ToLower(s)) == ToLower(s)
  {
  }

  /** Lower-casing leaves dots where they are and makes none. */
  lemma ToLowerKeepsDots(s: string)
    ensures '.' in ToLower(s) <==> '.' in s
  {
    forall i | 0 <= i < |s| ensures ToLower(s)[i] == '.' <==> s[i] == '.' {
    }
    if '.' in s {
      var i :| 0 <= i < |s| && s[i] == '.';
      assert ToLower(s)[i] == '.';
    }
  }

  /** The check ignores the case of the whole name: the extension is lower-cased and a dot is
      its own lower case. */
  lemma AllowedFileIgnoresCase(name: string)
    ensures AllowedFile(ToLower(name)) == AllowedFile(name)
  {
    var low := ToLower(name);
    forall k: nat | k < |name| ensures AllowedAfter(low, k) <==> AllowedAfter(name, k) {
      ToLowerSlice(name, k + 1);
      ToLowerIdempotent(name[k + 1..]);
      ToLowerKeepsDots(name[k + 1..]);
      assert low[k] == '.' <==> name[k] == '.';
    }
  }

  /** A name built as `base.ext`, with no dot in `ext`, is allowed exactly when `ext`,
      lower-cased, is an allowed extension, whatever `base` holds. */
  lemma AllowedFileOfParts(base: string, ext: string)
    requires '.' !in ext
    ensures AllowedFile(base + "." + ext) <==> ToLower(ext) in AllowedExtensions
  {
    var name := base + "." + ext;
    var k := |base|;
    assert name[k] == '.';
    assert name[k + 1..] == ext;
    OnlyLastDotCounts(name, k);
    assert AllowedAfter(name, k) <==> ToLower(ext) in AllowedExtensions;
  }

  /** The `image` part of a multipart request: its file name and its length in bytes. */
  datatype FilePart = FilePart(filename: string, size: nat)

  /** The four ways a request is refused before the image is decoded. */
  datatype Rejection = NoImageFile | NoFileSelected | TypeNotAllowed | TooLarge

  /** The checks of `extract_receipt`, in order; the first that fails decides, and a file of
      exactly `maxSize` bytes is accepted. */
  function Validate(image: Option<FilePart>, maxSize: int): (r: Option<Rejection>)
    ensures r == Some(NoImageFile) <==> image.None?
    ensures r == Some(NoFileSelected) <==> image.Some? && image.value.filename == ""
    ensures r == Some(TypeNotAllowed) <==>
              image.Some? && image.value.filename != "" && !AllowedFile(image.value.filename)
    ensures r == Some(TooLarge) <==>
              image.Some? && AllowedFile(image.value.filename) && image.value.size > maxSize
  {
    NoDotNotAllowed("");
    match image
    case None => Some(NoImageFile)
    case Some(f) =>
      if f.filename == "" then Some(NoFileSelected)
      else if !AllowedFile(f.filename) then Some(TypeNotAllowed)
      else if f.size > maxSize then Some(TooLarge)
      else None
  }

  /** A request passes exactly when it has an image whose name is allowed and whose size is
      within the limit: the empty-name check is subsumed by the extension check. */
  lemma AcceptedIff(image: Option<FilePart>, maxSize: int)
    ensures Validate(image, maxSize).None? <==>
              image.Some? && AllowedFile(image.value.filename) && image.value.size <= maxSize
  {
    NoDotNotAllowed("");
  }

  /** The size limit is inclusive: `maxSize` bytes pass, one byte more is refused. */
  lemma SizeLimitIsInclusive(name: string, maxSize: nat)
    requires AllowedFile(name)
    ensures Validate(Some(FilePart(name, maxSize)), maxSize).None?
    ensures Validate(Some(FilePart(name, maxSize + 1)), maxSize) == Some(TooLarge)
  {
    NoDotNotAllowed("");
  }

  /** At the default limit a 10 MiB upload passes and a 15 MiB upload is refused as too large. */
  lemma DefaultLimit(name: string)
    requires AllowedFile(name)
    ensures DefaultMaxImageSize == 10485760
    ensures Validate(Some(FilePart(name, 10485760)), DefaultMaxImageSize).None?
    ensures Validate(Some(FilePart(name, 15 * 1024 * 1024)), DefaultMaxImageSize) == Some(TooLarge)
  {
    SizeLimitIsInclusive(name, DefaultMaxImageSize);
  }

  /** `order` lists the elements of `s`, each once: one of the orders in which Python may
      iterate over the set. */
  predicate Enumerates(order: seq<string>, s: set<string>)
  {
    |order| == |s| && (forall e :: e in order ==> e in s) && (forall e :: e in s ==> e in order)
  }

  /** `repr` of a string without quotes or backslashes. */
  function StrRepr(e: string): string
  {
    "'" + e + "'"
  }

  /** The items' reprs joined by `", "`. */
  function JoinReprs(items: seq<string>): (r: string)
    ensures |items| > 0 ==> Contains(r, StrRepr(items[0]))
  {
    if |items| == 0 then ""
    else if |items| == 1 then
      assert OccursAt(StrRepr(items[0]), 0, StrRepr(items[0]));
      StrRepr(items[0])
    else
      var q := StrRepr(items[0]);
      var r := q + ", " + JoinReprs(items[1..]);
      assert r[..|q|] == q;
      assert OccursAt(r, 0, q);
      r
  }

  /** `repr` of a set listed in `order`. */
  function SetRepr(order: seq<string>): (r: string)
    ensures |r| >= 2
    ensures |order| > 0 ==> r[0] == '{' && r[|r| - 1] == '}'
  {
    if |order| == 0 then "set()" else "{" + JoinReprs(order) + "}"
  }

  /** Every item's repr appears in the joined list. */
  lemma {:induction false} JoinListsEach(items: seq<string>, i: nat)
    requires i < |items|
    ensures Contains(JoinReprs(items), StrRepr(items[i]))
    decreases i
  {
    if i > 0 {
      JoinListsEach(items[1..], i - 1);
      ContainsAfter(StrRepr(items[0]) + ", ", JoinReprs(items[1..]), StrRepr(items[i]));
    }
  }

  /** The body of each 400 reply. */
  function RejectionMessage(r: Rejection, order: seq<string>, maxSize: int): (msg: string)
    requires Enumerates(order, AllowedExtensions)
    ensures |msg| > 0
  {
    match r
    case NoImageFile => NoImageMessage
    case NoFileSelected => NoFileMessage
    case TypeNotAllowed => TypePrefix + SetRepr(order)
    case TooLarge => TooLargePrefix + IntString(maxSize) + TooLargeSuffix
  }

  /** The four 400 bodies are pairwise different, so the reply tells which check failed,
      whatever the set's print order and the configured limit. */
  lemma RejectionMessagesDiffer(r1: Rejection, r2: Rejection, order: seq<string>, maxSize: int)
    requires Enumerates(order, AllowedExtensions)
    ensures r1 != r2 ==> RejectionMessage(r1, order, maxSize) != RejectionMessage(r2, order, maxSize)
  {
    MessageMarks(r1, order, maxSize);
    MessageMarks(r2, order, maxSize);
  }

  /** Characters 0, 3 and 6 of each message: "No image…", "No file…", "File type…", "File too…". */
  lemma MessageMarks(r: Rejection, order: seq<string>, maxSize: int)
    requires Enumerates(order, AllowedExtensions)
    ensures var msg := RejectionMessage(r, order, maxSize);
            && |msg| > 6
            && (r.NoImageFile? ==> msg[0] == 'N' && msg[3] == 'i')
            && (r.NoFileSelected? ==> msg[0] == 'N' && msg[3] == 'f')
            && (r.TypeNotAllowed? ==> msg[0] == 'F' && msg[6] == 'y')
            && (r.TooLarge? ==> msg[0] == 'F' && msg[6] == 'o')
  {
    match r
    case NoImageFile => NoImageMarks(order, maxSize);
    case NoFileSelected => NoFileMarks(order, maxSize);
    case TypeNotAllowed => TypeMarks(order, maxSize);
    case TooLarge => TooLargeMarks(order, maxSize);
  }

  lemma NoImageMarks(order: seq<string>, maxSize: int)
    requires Enumerates(order, AllowedExtensions)
    ensures var msg := RejectionMessage(NoImageFile, order, maxSize);
            |msg| > 6 && msg[0] == 'N' && msg[3] == 'i'
  {
    assert RejectionMessage(NoImageFile, order, maxSize) == NoImageMessage;
  }

  lemma NoFileMarks(order: seq<string>, maxSize: int)
    requires Enumerates(order, AllowedExtensions)
    ensures var msg := RejectionMessage(NoFileSelected, order, maxSize);
            |msg| > 6 && msg[0] == 'N' && msg[3] == 'f'
  {
    assert RejectionMessage(NoFileSelected, order, maxSize) == NoFileMessage;
  }

  lemma TypeMarks(order: seq<string>, maxSize: int)
    requires Enumerates(order, AllowedExtensions)
    ensures var msg := RejectionMessage(TypeNotAllowed, order, maxSize);
            |msg| > 6 && msg[0] == 'F' && msg[6] == 'y'
  {
    var rest := SetRepr(order);
    assert RejectionMessage(TypeNotAllowed, order, maxSize) == TypePrefix + rest;
    PrefixMarks(TypePrefix, rest);
    TypePrefixMarks();
  }

  lemma TypePrefixMarks()
    ensures |TypePrefix| > 6 && TypePrefix[0] == 'F' && TypePrefix[6] == 'y'
  {
  }

  lemma TooLargeMarks(order: seq<string>, maxSize: int)
    requires Enumerates(order, AllowedExtensions)
    ensures var msg := RejectionMessage(TooLarge, order, maxSize);
            |msg| > 6 && msg[0] == 'F' && msg[6] == 'o'
  {
    PrefixMarks(TooLargePrefix, IntString(maxSize) + TooLargeSuffix);
  }

  /** A message that starts with a long enough prefix has the prefix's first characters. */
  lemma PrefixMarks(prefix: string, rest: string)
    requires |prefix| > 6
    ensures (prefix + rest)[0] == prefix[0] && (prefix + rest)[6] == prefix[6]
  {
  }

  const NoImageMessage: string := "No image file provided"
  const NoFileMessage: string := "No file selected"
  const TypePrefix: string := "File type not allowed. Allowed types: "
  const TooLargePrefix: string := "File too large. Max size: "
  const TooLargeSuffix: string := " bytes"

  /** Whatever order the set is printed in, the type message names every allowed extension. */
  lemma TypeMessageListsEveryExtension(order: seq<string>, maxSize: int)
    requires Enumerates(order, AllowedExtensions)
    ensures forall e :: e in AllowedExtensions ==>
              Contains(RejectionMessage(TypeNotAllowed, order, maxSize), StrRepr(e))
  {
    forall e | e in AllowedExtensions
      ensures Contains(RejectionMessage(TypeNotAllowed, order, maxSize), StrRepr(e))
    {
      var i :| 0 <= i < |order| && order[i] == e;
      SetReprListsEach(order, i);
      ContainsAfter(TypePrefix, SetRepr(order), StrRepr(e));
    }
  }

  /** Every item's repr appears in the set's repr. */
  lemma SetReprListsEach(order: seq<string>, i: nat)
    requires i < |order|
    ensures Contains(SetRepr(order), StrRepr(order[i]))
  {
    JoinListsEach(order, i);
    ContainsAfter("{", JoinReprs(order), StrRepr(order[i]));
    ContainsBefore("{" + JoinReprs(order), "}", StrRepr(order[i]));
  }

  /** The size message carries the limit in decimal: the digits between its fixed prefix and
      suffix read back as the limit. */
  lemma TooLargeMessageNamesLimit(order: seq<string>, maxSize: nat)
    requires Enumerates(order, AllowedExtensions)
    ensures var msg := RejectionMessage(TooLarge, order, maxSize);
            var digits := msg[|TooLargePrefix|..|msg| - |TooLargeSuffix|];
            && msg[..|TooLargePrefix|] == TooLargePrefix
            && msg[|msg| - |TooLargeSuffix|..] == TooLargeSuffix
            && (forall i :: 0 <= i < |digits| ==> IsDigit(digits[i]))
            && DecimalValue(digits) == maxSize
  {
    var msg := RejectionMessage(TooLarge, order, maxSize);
    var d := DecimalString(maxSize);
    assert msg == TooLargePrefix + d + TooLargeSuffix;
    assert msg[|TooLargePrefix|..|msg| - |TooLargeSuffix|] == d;
    DecimalRoundTrip(maxSize);
  }
}

=== FILE: wrappers.dfy ===
/** Failure-carrying datatypes shared by the rest of the model. */
module Wrappers {

  /** A value that may be absent: Python's `None`, `-1` from `str.find`, or a decoder that raised. */
  datatype Option<+T> = None | Some(value: T)

  /** Either a value or the error that stands for a raised exception. */
  datatype Result<+T, +E> = Ok(value: T) | Err(error: E)
}
